=== FILE: README.md ===
# NDEF text records on an NFC tag: a Dafny model

This project models the NFC logic of the example activity
`app/src/main/java/com/nfcbook/ch3/example1/MainActivity.java`. That logic
covers the NDEF text record and the calls that read and write tags. NDEF is
the NFC Forum Data Exchange Format. The text record layout is given in
section 3.2.1 of the NFC Forum Text Record Type Definition 1.0.

The model has six modules:

- `Ndef` (`ndef.dfy`): the data model. It defines records (TNF, type, id,
  payload as `seq<bv8>`), messages, and an abstract tag. A tag may expose an
  Ndef view, with a writable flag and a cached message. It may also expose an
  NdefFormatable view.
- `TextRecord` (`text_record.dfy`): `createTextRecord` and
  `getTextFromNdefRecord`, exactly as written. The encoder masks the language
  length with `0x1F`. The decoder masks it with the octal literal `0063`,
  which is `0x33`. When bit 7 of the status byte is set, the decoder asks for
  the charset named `"UTF- 16"`, with a space in it. The module also has a
  corrected codec that uses the 6-bit length field and the name `"UTF-16"`,
  and lemmas that compare the two codecs.
- `Inspector` (`inspector.dfy`): `getNdefMessageFromTag`,
  `getFirstNdefRecord`, `isNdefRecordOfTnfAndRdt`, and the four-way
  classification that `readNdefMessage` performs.
- `TagSession` (`tag_session.dfy`): `writeNdefMessage` and `formatTag`. They
  run over an abstract tag, and an input says which platform calls throw. The
  result is the returned boolean, the trace of connect/write/format/close
  calls, and the message the tag holds afterwards.
- `JavaInt` (`java_int.dfy`): the 32-bit wrap-around of `writeCounter++` and
  the decimal text that `"..." + int` produces.
- `Activity` (`activity.dfy`): the tag branch of `onNewIntent`. In write mode
  it writes `"Tag content NR. " + (writeCounter++)`. In read mode it reads the
  tag. The module also covers sequences of such events.

Exceptions become values. The decoder's outcome is one of three things:
`Text(charset, bytes)`, `NullText` (the caught `UnsupportedEncodingException`),
or `Thrown(fault)`. `Thrown` is an exception that escapes the method:
`payload[0]` on an empty payload, or a string slice that does not fit the
payload.

The model follows the code as written:

- The decoder returns only the text. It skips the language code and does not
  return it.
- The decoder masks the length with `0x33` and asks for the charset
  `"UTF- 16"`, so it never yields UTF-16 text.
- Short payloads throw out of the decoder. Nothing catches them there.
- The encoder accepts a language code of any length and masks its length
  with `0x1F`.
- `close` is not called when connect, write or format throws. A connection
  opened before a failed write or format is left open.

The modelled runtime is Android 6.0 and earlier, whose core library comes from
Apache Harmony. There the `String(byte[], int, int, String)` constructor looks
the charset up before it checks the slice bounds. The lookup turns a name that
is not a legal charset name into `UnsupportedEncodingException`. So a status
byte with bit 7 set always yields null, whatever the payload length. The
desktop JDK checks the bounds first. Later Android versions consult ICU before
they check the name (see "Left out").

## Model

| member | source | states |
|---|---|---|
| `TextRecord.LookupCharset` | app/src/main/java/com/nfcbook/ch3/example1/MainActivity.java:167-171 | Charset lookup as on Android 6.0 and earlier. A charset is found only for a legal name. `"UTF-8"` finds UTF-8. `"UTF- 16"` has a space in it, so it finds nothing, which is the caught `UnsupportedEncodingException` |
| `TextRecord.StatusByte` | app/src/main/java/com/nfcbook/ch3/example1/MainActivity.java:196 | The status byte is below 32 and never has bit 7 (UTF-16) set. It equals the language length when that is below 32, and is congruent to it modulo 32 otherwise |
| `TextRecord.LanguageSizeAsWritten` | app/src/main/java/com/nfcbook/ch3/example1/MainActivity.java:168 | The decoded language size is at most 0x33 and at most the status byte. It equals the status byte iff bits 2, 3, 6 and 7 are clear |
| `TextRecord.CharsetNameAsWritten` | app/src/main/java/com/nfcbook/ch3/example1/MainActivity.java:167 | The UTF-8 name is chosen exactly when bit 7 is clear. The name chosen for bit 7 set never resolves to a charset |
| `TextRecord.CreateTextRecord` | app/src/main/java/com/nfcbook/ch3/example1/MainActivity.java:187-204 | The record is well-known, type "T", with an empty id. The payload is the status byte, then the language bytes, then the text bytes, so its length is 1 + L + T. Bit 7 is clear |
| `TextRecord.TextFromRecord` | app/src/main/java/com/nfcbook/ch3/example1/MainActivity.java:163-175 | An empty payload throws. Bit 7 set gives null. A UTF-8 payload shorter than 1 + (status & 0x33) throws. Otherwise the result is the UTF-8 suffix after 1 + (status & 0x33) bytes. These cases are stated as if-and-only-if conditions |
| `TextRecord.StatusByteFixed` | app/src/main/java/com/nfcbook/ch3/example1/MainActivity.java:196 | Corrected status byte: below 64 with bit 7 clear. It equals the length when that is below 64 (the 6-bit field), and is congruent to it modulo 64 otherwise |
| `TextRecord.CreateTextRecordFixed` | app/src/main/java/com/nfcbook/ch3/example1/MainActivity.java:187-204 | Corrected encoder: the same layout and header fields, with the 6-bit length field |
| `TextRecord.ParseTextRecord` | app/src/main/java/com/nfcbook/ch3/example1/MainActivity.java:163-175 | Corrected decoder. It fails exactly on an empty payload or one shorter than 1 + (status & 0x3F). Otherwise the payload splits into status, language and text, and the charset follows bit 7 |
| `TextRecord.ReadBackLanguageSize` | app/src/main/java/com/nfcbook/ch3/example1/MainActivity.java:168 | Reading `0x1F`-masked lengths back with `0063` never overshoots. It is exact iff L is in {0,1,2,3,16,17,18,19} |
| `TextRecord.TextFromCreatedRecord` | app/src/main/java/com/nfcbook/ch3/example1/MainActivity.java:163-204 | Decoding an encoded record never throws and never gives null. It yields the language bytes the mask failed to skip, followed by the text |
| `TextRecord.RoundTripAsWritten` | app/src/main/java/com/nfcbook/ch3/example1/MainActivity.java:163-204 | Decoding an encoded record gives back exactly the text iff the language length is in {0,1,2,3,16,17,18,19} |
| `TextRecord.RoundTripFixed` | app/src/main/java/com/nfcbook/ch3/example1/MainActivity.java:163-204 | The corrected codec recovers UTF-8, the language and the text for every language code of at most 63 bytes |
| `TextRecord.DecodersAgreeIff` | app/src/main/java/com/nfcbook/ch3/example1/MainActivity.java:168 | On a well-formed UTF-8 record, the two decoders return the same text iff status bits 2 and 3 are clear |
| `TextRecord.SampleRecordRoundTrip` | app/src/main/java/com/nfcbook/ch3/example1/MainActivity.java:187-199 | "Tag content NR. 1" in "en" is framed as 0x02 'e' 'n' 'T' ... '1' and decodes back to the same text |
| `TextRecord.EnUsRecordMisread` | app/src/main/java/com/nfcbook/ch3/example1/MainActivity.java:168 | For a conforming "en-US" record, the decoder as written returns "n-US" in front of the text |
| `TextRecord.Utf16RecordIsNull` | app/src/main/java/com/nfcbook/ch3/example1/MainActivity.java:167 | A conforming UTF-16 record decodes to null as written, but to UTF-16 text with the registered name |
| `TextRecord.LongLanguageLost` | app/src/main/java/com/nfcbook/ch3/example1/MainActivity.java:196 | A 32-byte language code is written with length 0, so a conforming reader takes it for text |
| `Inspector.SameBytes` | app/src/main/java/com/nfcbook/ch3/example1/MainActivity.java:157 | The element-wise comparison of `Arrays.equals` is true iff the sequences are equal |
| `Inspector.IsRecordOfTnfAndType` | app/src/main/java/com/nfcbook/ch3/example1/MainActivity.java:156-158 | True iff the TNFs are equal and the types have the same length and equal bytes at every index |
| `Inspector.FirstRecord` | app/src/main/java/com/nfcbook/ch3/example1/MainActivity.java:124-131 | Gives element 0 of a non-empty record array, and null iff the array is empty |
| `Inspector.MessageFromTag` | app/src/main/java/com/nfcbook/ch3/example1/MainActivity.java:112-119 | Gives the cached message iff the tag has an Ndef view that caches one, and null otherwise |
| `Inspector.ReadNdefMessage` | app/src/main/java/com/nfcbook/ch3/example1/MainActivity.java:136-154 | Each outcome (no message, no record, not text, content) holds iff its condition holds. The decoder runs only on a first record that is well-known with type "T" |
| `Inspector.ReadCreatedRecord` | app/src/main/java/com/nfcbook/ch3/example1/MainActivity.java:136-154 | A tag whose first cached record came from `CreateTextRecord` shows exactly that text iff the language length is in the round-trip set. Later records are ignored |
| `TagSession.FormatTag` | app/src/main/java/com/nfcbook/ch3/example1/MainActivity.java:69-82 | With no formatable view: false and no calls. True iff the trace is connect, format, close, which happens iff no call throws. Every recorded call throws exactly when its fault flag is set. A failed connect or format means no close. A failed format leaves the connection open |
| `TagSession.FormatSessionCalls` | app/src/main/java/com/nfcbook/ch3/example1/MainActivity.java:69-82 | The trace is exactly connect, format, close in that order, cut off after the first call that throws. Without a formatable view there are no calls |
| `TagSession.WriteNdefMessage` | app/src/main/java/com/nfcbook/ch3/example1/MainActivity.java:87-107 | A null tag gives false and no calls. No Ndef view means the format path. On an Ndef view the result is true iff the view is writable and no call throws, and the message is stored iff the view is writable and connect and write do not throw. A read-only view gives connect, close and no write. True iff the trace is connect, write, close or connect, format, close. Every recorded call throws exactly when its fault flag is set. A throw in connect, write or format means false and no close. The connection is left open exactly in the stated cases, which agrees with replaying the calls |
| `TagSession.NdefSessionCalls` | app/src/main/java/com/nfcbook/ch3/example1/MainActivity.java:93-102 | On an Ndef view the trace is exactly connect, write, close for a writable view, or connect, close for a read-only one. It is cut off after the first call that throws, and there is never a format call |
| `TagSession.ConnectFailureEndsSession` | app/src/main/java/com/nfcbook/ch3/example1/MainActivity.java:69-106 | When connect throws, at most that one call is made, and close is never called |
| `TagSession.FailureAfterStore` | app/src/main/java/com/nfcbook/ch3/example1/MainActivity.java:94-106 | If only `close` throws after a write, the message is on the tag and the method still returns false |
| `JavaInt.Wrap` | app/src/main/java/com/nfcbook/ch3/example1/MainActivity.java:32 | Reduction to the 32-bit int range is congruent modulo 2^32 and leaves in-range values alone |
| `JavaInt.Increment` | app/src/main/java/com/nfcbook/ch3/example1/MainActivity.java:229 | The value `writeCounter++` leaves is counter + 1, except that the largest int wraps to the smallest |
| `JavaInt.IncrementWraps` | app/src/main/java/com/nfcbook/ch3/example1/MainActivity.java:229 | That value is the 32-bit two's complement reduction of counter + 1 |
| `JavaInt.WrapShift` | app/src/main/java/com/nfcbook/ch3/example1/MainActivity.java:229 | Wrapping an intermediate sum does not change the wrapped result |
| `JavaInt.IncrementTimesWraps` | app/src/main/java/com/nfcbook/ch3/example1/MainActivity.java:229 | n post-increments add n modulo 2^32 |
| `JavaInt.IncrementTimesDistinct` | app/src/main/java/com/nfcbook/ch3/example1/MainActivity.java:229 | Fewer than 2^32 increments never repeat a counter value |
| `JavaInt.Digits` | app/src/main/java/com/nfcbook/ch3/example1/MainActivity.java:229 | The decimal digits of a natural number: non-empty, all digits, no leading zero |
| `JavaInt.Decimal` | app/src/main/java/com/nfcbook/ch3/example1/MainActivity.java:229 | The decimal text of an int starts with '-' iff the value is negative. The rest is digits |
| `JavaInt.DecimalValue` | app/src/main/java/com/nfcbook/ch3/example1/MainActivity.java:229 | The digits of the decimal text spell the value for a non-negative int, and its negation after the sign for a negative one |
| `JavaInt.DigitsRoundTrip` | app/src/main/java/com/nfcbook/ch3/example1/MainActivity.java:229 | Reading the printed digits back gives the number |
| `JavaInt.DigitsInjective` | app/src/main/java/com/nfcbook/ch3/example1/MainActivity.java:229 | Two natural numbers with the same digits are equal |
| `JavaInt.DecimalInjective` | app/src/main/java/com/nfcbook/ch3/example1/MainActivity.java:229 | Two ints with the same decimal text are equal |
| `Activity.AsciiBytes` | app/src/main/java/com/nfcbook/ch3/example1/MainActivity.java:191 | For an ASCII string, the UTF-8 bytes are one byte per character, with the same code |
| `Activity.Content` | app/src/main/java/com/nfcbook/ch3/example1/MainActivity.java:229 | The written content is ASCII: the prefix "Tag content NR. " followed by the decimal text of the counter |
| `Activity.OnTag` | app/src/main/java/com/nfcbook/ch3/example1/MainActivity.java:224-243 | Write mode: the counter is post-incremented whatever the write returns. Exactly one record, holding the content for the old counter, goes to `writeNdefMessage`. Read mode: the state is unchanged, a null tag aborts, and otherwise `readNdefMessage` runs |
| `Activity.Run` | app/src/main/java/com/nfcbook/ch3/example1/MainActivity.java:224-243 | A sequence of events yields one outcome per event and keeps the mode. In write mode, n events increment the counter n times. In read mode the state is unchanged and outcome i is what `onNewIntent` gives for event i |
| `Activity.RunInWriteMode` | app/src/main/java/com/nfcbook/ch3/example1/MainActivity.java:229-231 | In write mode, event i writes the one-record message for the counter incremented i times, and its result is `writeNdefMessage` on event i's own tag and faults |
| `Activity.WrittenMessageInjective` | app/src/main/java/com/nfcbook/ch3/example1/MainActivity.java:229-230 | Different counter values write different messages |
| `Activity.RunWritesDistinct` | app/src/main/java/com/nfcbook/ch3/example1/MainActivity.java:229-231 | Among fewer than 2^32 write events, no two write the same message |
| `Activity.FirstWrite` | app/src/main/java/com/nfcbook/ch3/example1/MainActivity.java:32 | The first write with language "en" writes the record for "Tag content NR. 1" and leaves the counter at 2 |
| `Activity.ConsecutiveContents` | app/src/main/java/com/nfcbook/ch3/example1/MainActivity.java:229 | Two consecutive contents share the prefix and are different |

## Findings

| source | as written | input that shows it | evidently intended | confidence | as-written member | corrected member |
|---|---|---|---|---|---|---|
| app/src/main/java/com/nfcbook/ch3/example1/MainActivity.java:168 | `payload[0] & 0063`: the octal literal is 0x33, so length bits 2 and 3 are dropped | a conforming UTF-8 record with language "en-US" (status 0x05) decodes as "n-US" followed by the text | `payload[0] & 0x3F`, the 6-bit length field of the text record | high; not executed | `TextRecord.EnUsRecordMisread` | `TextRecord.ParseTextRecord` |
| app/src/main/java/com/nfcbook/ch3/example1/MainActivity.java:167 | charset name `"UTF- 16"`, which is not a legal charset name | payload 0x82 'e' 'n' 0x00 0x48 decodes to null | `"UTF-16"` | plausible; depends on the runtime's charset lookup; not executed | `TextRecord.Utf16RecordIsNull` | `TextRecord.ParseTextRecord` |
| app/src/main/java/com/nfcbook/ch3/example1/MainActivity.java:196 | `languageSize & 0x1F` keeps only 5 of the 6 length bits | a 32-byte language code is written with length 0 | `languageSize & 0x3F` | medium (device language codes are 2 or 3 bytes); not executed | `TextRecord.LongLanguageLost` | `TextRecord.CreateTextRecordFixed` |

The corrected codec comes with its round trip (`TextRecord.RoundTripFixed`).
`TextRecord.DecodersAgreeIff` gives the exact set of records on which the two
decoders differ. The model of the activity itself (`Inspector`, `Activity`)
keeps the codec as written, because it describes what the program does.

## Left out

- User interface and lifecycle are not modelled: foreground dispatch,
  `onCreate`/`onResume`/`onPause`, menus, the toolbar, toasts, `hasNfc`,
  `isNfcIntent`, the read/write mode buttons and logging. The write mode is a
  field of `Activity.State` that the caller sets.
- `Locale.getDefault().getLanguage()` is a library call. The language code is
  a parameter, given as bytes.
- Character conversion is not modelled: `getBytes("UTF-8")` and
  `new String(..., charset)` are library calls. Text comes in as bytes, and
  the decoder returns a byte slice plus a charset tag. The one exception is
  the ASCII content string, whose UTF-8 bytes are its character codes.
- `createTextRecord` returning null after `UnsupportedEncodingException` is
  not modelled. That path cannot happen, because "UTF-8" is always supported,
  so the encoder is total.
- The validation inside the `NdefRecord` and `NdefMessage` constructors is
  not modelled. One consequence: an empty record array is accepted, so
  `getFirstNdefRecord`'s null branch is reachable here. A null array from
  `getRecords()` cannot be represented.
- `TextRecord.LookupCharset` knows only "UTF-8" and "UTF-16". It treats other
  legal names as unsupported, and it ignores aliases and case-insensitive
  matching. The decoder only ever passes "UTF-8" and "UTF- 16".
- TextRecord.LookupCharset: models the Android 6.0 and earlier lookup, which
  rejects `"UTF- 16"` as an illegal name. It does not model Android 7.0 and
  later, which first ask ICU. ICU's loose alias matching ignores
  non-alphanumeric characters, so `"UTF- 16"` may resolve to UTF-16 there.
- Radio I/O is not modelled. Which of connect, write, format and close throws
  is an input. `Ndef.get`, `NdefFormatable.get` and `isWritable` are assumed
  not to throw.
- `Log.e` throws on Android when an exception's message is null, as it is
  for a `TagLostException` without a message. The model assumes that logging
  in the catch blocks completes.
- Read mode with a null tag (`Activity.ReadAborted`) stands for the
  `NullPointerException` from `Ndef.get(null)`, which `onNewIntent` catches.
  An exception from the decoder is kept as `Thrown` in the read outcome; in
  the program, `onNewIntent` catches it too.
- Records after the first one and non-text record types are not modelled.

=== FILE: activity.dfy ===
/**
  The tag branch of onNewIntent: in write mode it builds the text record
  "Tag content NR. <counter>" in the device language, post-increments the
  counter and hands a one-record message to writeNdefMessage; in read mode it
  runs readNdefMessage. The toasts are not modelled; the outcome choosing
  them is.
 */
module Activity {
  import opened Ndef
  import opened TextRecord
  import opened Inspector
  import opened TagSession
  import opened JavaInt

  const ContentPrefix: string := "Tag content NR. "

  /** The activity state the handler reads and writes; the counter starts at 1. */
  datatype State = State(writeMode: bool, counter: Int32)

  const InitialState: State := State(false, 1)

  /** One tag-discovered intent: the tag extra (possibly null) and which
      platform calls on that tag will throw. */
  datatype TagEvent = TagEvent(tag: Option<Tag>, faults: Faults)

  /** What one event did. `ReadAborted` is read mode with a null tag: Ndef.get
      throws, and onNewIntent's catch block swallows it. */
  datatype Outcome = Wrote(message: Message, result: WriteResult) | Read(read: ReadOutcome) | ReadAborted

  predicate IsAscii(s: string) {
    forall i :: 0 <= i < |s| ==> s[i] as int < 0x80
  }

  /** getBytes("UTF-8") of an ASCII string: one byte per character, with the same code. */
  function AsciiBytes(s: string): (b: seq<Byte>)
    requires IsAscii(s)
    ensures |b| == |s|
    ensures forall i :: 0 <= i < |s| ==> b[i] as int == s[i] as int
  {
    AsciiFitsBytes(s);
    seq(|s|, i requires 0 <= i < |s| => s[i] as int as Byte)
  }

  lemma AsciiFitsBytes(s: string)
    requires IsAscii(s)
    ensures forall i :: 0 <= i < |s| ==> (s[i] as int as Byte) as int == s[i] as int
  {
    forall i | 0 <= i < |s| ensures (s[i] as int as Byte) as int == s[i] as int {
      SmallByte(s[i] as int);
    }
  }

  /** `"Tag content NR. " + counter`. */
  function Content(counter: Int32): (s: string)
    ensures IsAscii(s)
    ensures |s| > |ContentPrefix| && s[..|ContentPrefix|] == ContentPrefix
    ensures s[|ContentPrefix|..] == Decimal(counter)
  {
    var s := ContentPrefix + Decimal(counter);
    assert s[|ContentPrefix|..] == Decimal(counter);
    s
  }

  /** The UTF-8 bytes of the content written for a counter value. */
  function ContentBytes(counter: Int32): seq<Byte> {
    AsciiBytes(Content(counter))
  }

  /** The message written by a write-mode event when the counter reads `counter`. */
  function WrittenMessage(language: seq<Byte>, counter: Int32): Message {
    Message([CreateTextRecord(language, ContentBytes(counter))])
  }

  /** onNewIntent for a tag intent. In write mode the counter is incremented
      whatever the write returns, and exactly one record is written; in read
      mode the state is left alone. */
  function OnTag(s: State, language: seq<Byte>, event: TagEvent): (r: (State, Outcome))
    ensures s.writeMode ==>
              && r.0 == s.(counter := Increment(s.counter))
              && r.1.Wrote?
              && r.1.message == WrittenMessage(language, s.counter)
              && r.1.result == WriteNdefMessage(event.tag, r.1.message, event.faults)
    ensures !s.writeMode ==> r.0 == s && !r.1.Wrote?
    ensures !s.writeMode ==> (r.1 == ReadAborted <==> event.tag.None?)
    ensures !s.writeMode && event.tag.Some? ==> r.1 == Read(ReadNdefMessage(event.tag.value))
  {
    if s.writeMode then
      var message := WrittenMessage(language, s.counter);
      (s.(counter := Increment(s.counter)), Wrote(message, WriteNdefMessage(event.tag, message, event.faults)))
    else
      match event.tag
      case None => (s, ReadAborted)
      case Some(tag) => (s, Read(ReadNdefMessage(tag)))
  }

  /** A sequence of tag events handled one after the other: one outcome per
      event; in write mode the counter is incremented once per event, and in
      read mode the state is left alone and each event is read on its own. */
  function Run(s: State, language: seq<Byte>, events: seq<TagEvent>): (r: (State, seq<Outcome>))
    ensures |r.1| == |events|
    ensures r.0.writeMode == s.writeMode
    ensures s.writeMode ==> r.0.counter == IncrementTimes(s.counter, |events|)
    ensures !s.writeMode ==> r.0 == s
    ensures !s.writeMode ==> forall i :: 0 <= i < |events| ==> r.1[i] == OnTag(s, language, events[i]).1
    decreases |events|
  {
    if |events| == 0 then (s, [])
    else
      var step := OnTag(s, language, events[0]);
      assert s.writeMode ==> step.0.counter == Increment(s.counter);
      var tail := Run(step.0, language, events[1..]);
      assert |events[1..]| == |events| - 1;
      assert s.writeMode ==> IncrementTimes(s.counter, |events|) == IncrementTimes(step.0.counter, |events| - 1);
      assert s.writeMode ==> tail.0.counter == IncrementTimes(s.counter, |events|);
      assert forall i :: 1 <= i < |events| ==> events[1..][i - 1] == events[i];
      (tail.0, [step.1] + tail.1)
  }

  /** In write mode, the i-th event writes the content for the counter
      incremented i times, whatever the writes return. */
  lemma {:induction false} RunInWriteMode(s: State, language: seq<Byte>, events: seq<TagEvent>)
    requires s.writeMode
    ensures forall i :: 0 <= i < |events| ==>
              && Run(s, language, events).1[i].Wrote?
              && Run(s, language, events).1[i].message == WrittenMessage(language, IncrementTimes(s.counter, i))
              && Run(s, language, events).1[i].result
                 == WriteNdefMessage(events[i].tag, Run(s, language, events).1[i].message, events[i].faults)
    decreases |events|
  {
    if |events| > 0 {
      var step := OnTag(s, language, events[0]);
      var next := step.0;
      assert next.writeMode && next.counter == Increment(s.counter);
      assert step.1.Wrote? && step.1.message == WrittenMessage(language, s.counter);
      assert step.1.result == WriteNdefMessage(events[0].tag, step.1.message, events[0].faults);
      var tail := Run(next, language, events[1..]).1;
      var outcomes := [step.1] + tail;
      assert Run(s, language, events).1 == outcomes;
      RunInWriteMode(next, language, events[1..]);
      forall i | 0 <= i < |events|
        ensures outcomes[i].Wrote? && outcomes[i].message == WrittenMessage(language, IncrementTimes(s.counter, i))
        ensures outcomes[i].result == WriteNdefMessage(events[i].tag, outcomes[i].message, events[i].faults)
      {
        if i > 0 {
          assert outcomes[i] == tail[i - 1];
          assert events[i] == events[1..][i - 1];
          assert IncrementTimes(s.counter, i) == IncrementTimes(next.counter, i - 1);
        }
      }
    }
  }

  /** Distinct counter values write distinct messages. */
  lemma {:induction false} WrittenMessageInjective(language: seq<Byte>, x: Int32, y: Int32)
    requires WrittenMessage(language, x) == WrittenMessage(language, y)
    ensures x == y
  {
    var tx := CreateTextRecord(language, ContentBytes(x)).payload[1 + |language|..];
    var ty := CreateTextRecord(language, ContentBytes(y)).payload[1 + |language|..];
    assert ContentBytes(x) == tx == ty == ContentBytes(y);
    var cx, cy := Content(x), Content(y);
    assert cx == cy by {
      forall i | 0 <= i < |cx| ensures cx[i] == cy[i] {
        assert ContentBytes(x)[i] as int == cx[i] as int;
        assert ContentBytes(y)[i] as int == cy[i] as int;
      }
    }
    assert Decimal(x) == cx[|ContentPrefix|..] == Decimal(y);
    DecimalInjective(x, y);
  }

  /** Fewer than 2^32 write-mode events never write the same message twice. */
  lemma {:induction false} RunWritesDistinct(s: State, language: seq<Byte>, events: seq<TagEvent>, i: int, j: int)
    requires s.writeMode
    requires 0 <= i < j < |events| <= 0x1_0000_0000
    ensures var outcomes := Run(s, language, events).1;
            outcomes[i].Wrote? && outcomes[j].Wrote? && outcomes[i].message != outcomes[j].message
  {
    var outcomes := Run(s, language, events).1;
    var x, y := IncrementTimes(s.counter, i), IncrementTimes(s.counter, j);
    RunInWriteMode(s, language, events);
    assert outcomes[i].message == WrittenMessage(language, x);
    assert outcomes[j].message == WrittenMessage(language, y);
    IncrementTimesDistinct(s.counter, i, j);
    if WrittenMessage(language, x) == WrittenMessage(language, y) {
      WrittenMessageInjective(language, x, y);
    }
  }

  /** The first write after switching to write mode, with device language "en",
      writes "Tag content NR. 1" as the payload 0x02 'e' 'n' 'T' ... '1'. */
  lemma {:induction false} FirstWrite(event: TagEvent)
    ensures OnTag(InitialState.(writeMode := true), LanguageEn, event).1.message
            == Message([CreateTextRecord(LanguageEn, SampleText)])
    ensures OnTag(InitialState.(writeMode := true), LanguageEn, event).0.counter == 2
  {
    assert Digits(1) == "1";
    assert Content(1) == "Tag content NR. 1";
    assert ContentBytes(1) == SampleText;
  }

  /** The contents of two consecutive writes differ only in the counter's decimal text. */
  lemma {:induction false} ConsecutiveContents(counter: Int32)
    ensures Content(counter)[..|ContentPrefix|] == Content(Increment(counter))[..|ContentPrefix|]
    ensures Content(counter) != Content(Increment(counter))
  {
    var next := Increment(counter);
    if Content(counter) == Content(next) {
      assert Decimal(counter) == Decimal(next);
      DecimalInjective(counter, next);
    }
  }
}

=== FILE: inspector.dfy ===
/**
  The read path of the activity: fetch the cached message of a tag
  (getNdefMessageFromTag), take its first record (getFirstNdefRecord), check
  that it is a well-known text record (isNdefRecordOfTnfAndRdt) and decode it
  (readNdefMessage). The toast shown for each outcome is not modelled; the
  outcome that selects it is.
 */
module Inspector {
  import opened Ndef
  import opened TextRecord

  /** Element-wise byte comparison, as java.util.Arrays.equals on two byte arrays. */
  function SameBytes(a: seq<Byte>, b: seq<Byte>): (r: bool)
    ensures r <==> a == b
  {
    |a| == |b| && (|a| == 0 || (a[0] == b[0] && SameBytes(a[1..], b[1..])))
  }

  /** isNdefRecordOfTnfAndRdt: equal TNF and a byte-exact equal type. */
  function IsRecordOfTnfAndType(record: Record, tnf: int, recordType: seq<Byte>): (r: bool)
    ensures r <==> record.tnf == tnf && |record.recordType| == |recordType|
                   && forall i :: 0 <= i < |recordType| ==> record.recordType[i] == recordType[i]
  {
    record.tnf == tnf && SameBytes(record.recordType, recordType)
  }

  /** getFirstNdefRecord: element 0, or null for an empty record array. */
  function FirstRecord(message: Message): (r: Option<Record>)
    ensures r.None? <==> |message.records| == 0
    ensures r.Some? ==> r.value == message.records[0]
  {
    if |message.records| > 0 then Some(message.records[0]) else None
  }

  /** getNdefMessageFromTag: the cached message of the Ndef view; null when the
      tag has no Ndef view or the view caches no message. No connection is made. */
  function MessageFromTag(tag: Tag): (m: Option<Message>)
    ensures m.Some? <==> tag.ndef.Some? && tag.ndef.value.cached.Some?
    ensures m.Some? ==> m == tag.ndef.value.cached
  {
    match tag.ndef
    case None => None
    case Some(view) => view.cached
  }

  /** The four outcomes readNdefMessage distinguishes: "No Ndef message found.",
      "No Ndef record found.", "Record is not Text formatted." and the decoded
      content (which may itself be null or an exception that escapes). */
  datatype ReadOutcome = NoMessage | NoRecord | NotText | Content(decoded: Decoded)

  /** True when the first record of the tag's cached message is a well-known text record. */
  predicate HoldsTextRecord(tag: Tag) {
    && tag.ndef.Some? && tag.ndef.value.cached.Some?
    && |tag.ndef.value.cached.value.records| > 0
    && tag.ndef.value.cached.value.records[0].tnf == TnfWellKnown
    && tag.ndef.value.cached.value.records[0].recordType == RtdText
  }

  /** readNdefMessage: the decoder is applied to the first record only, and only
      when that record has TNF well-known and type "T". */
  function ReadNdefMessage(tag: Tag): (r: ReadOutcome)
    ensures r == NoMessage <==> MessageFromTag(tag).None?
    ensures r == NoRecord <==> MessageFromTag(tag).Some? && |MessageFromTag(tag).value.records| == 0
    ensures r == NotText <==>
              && MessageFromTag(tag).Some? && |MessageFromTag(tag).value.records| > 0
              && !HoldsTextRecord(tag)
    ensures r.Content? <==> HoldsTextRecord(tag)
    ensures r.Content? ==> r.decoded == TextFromRecord(tag.ndef.value.cached.value.records[0])
  {
    match MessageFromTag(tag)
    case None => NoMessage
    case Some(message) =>
      match FirstRecord(message)
      case None => NoRecord
      case Some(record) =>
        if IsRecordOfTnfAndType(record, TnfWellKnown, RtdText) then Content(TextFromRecord(record))
        else NotText
  }

  /** A tag whose cached message starts with a record built by CreateTextRecord
      shows exactly the encoded text iff the language length is a round-trip length;
      later records are never looked at. */
  lemma {:induction false} ReadCreatedRecord(writable: bool, language: seq<Byte>, text: seq<Byte>,
                                             rest: seq<Record>, formatable: bool)
    ensures ReadNdefMessage(Tag(Some(NdefView(writable,
              Some(Message([CreateTextRecord(language, text)] + rest)))), formatable))
            == Content(Text(Utf8, text))
            <==> |language| in RoundTripLengths
  {
    RoundTripAsWritten(language, text);
  }
}

=== FILE: java_int.dfy ===
/**
  The two pieces of Java integer behaviour the write counter depends on: the
  32-bit wrap-around of `writeCounter++` and the decimal text that string
  concatenation produces for an `int` (Integer.toString).
 */
module JavaInt {

  const MinInt: int := -0x8000_0000
  const MaxInt: int := 0x7FFF_FFFF

  type Int32 = x: int | MinInt <= x <= MaxInt

  /** Two's complement reduction of an unbounded integer to 32 bits. */
  function Wrap(x: int): (r: Int32)
    ensures (r - x) % 0x1_0000_0000 == 0
    ensures MinInt <= x <= MaxInt ==> r == x
  {
    (x - MinInt) % 0x1_0000_0000 + MinInt
  }

  /** The value `x++` leaves behind: one more, except that the largest int wraps to the smallest. */
  function Increment(x: Int32): (r: Int32)
    ensures x < MaxInt ==> r == x + 1
    ensures x == MaxInt ==> r == MinInt
  {
    if x == MaxInt then MinInt else x + 1
  }

  /** `x++` is the two's complement reduction of x + 1. */
  lemma IncrementWraps(x: Int32)
    ensures Increment(x) == Wrap(x + 1)
  {
  }

  /** The counter after `n` executions of `x++`. */
  function IncrementTimes(x: Int32, n: nat): Int32
    decreases n
  {
    if n == 0 then x else IncrementTimes(Increment(x), n - 1)
  }

  /** Wrapping twice is wrapping once. */
  lemma WrapShift(x: int, i: int)
    ensures Wrap(Wrap(x) + i) == Wrap(x + i)
  {
    var a := Wrap(x);
    var k := (a - x) / 0x1_0000_0000;
    assert a - x == k * 0x1_0000_0000;
    assert a + i - MinInt == (x + i - MinInt) + k * 0x1_0000_0000;
  }

  /** n increments add n modulo 2^32. */
  lemma {:induction false} IncrementTimesWraps(x: Int32, n: nat)
    ensures IncrementTimes(x, n) == Wrap(x + n)
    decreases n
  {
    if n > 0 {
      IncrementWraps(x);
      IncrementTimesWraps(Increment(x), n - 1);
      WrapShift(x + 1, n - 1);
    }
  }

  /** Fewer than 2^32 increments never come back to an earlier value. */
  lemma {:induction false} IncrementTimesDistinct(x: Int32, i: nat, j: nat)
    requires i < j < 0x1_0000_0000
    ensures IncrementTimes(x, i) != IncrementTimes(x, j)
  {
    IncrementTimesWraps(x, i);
    IncrementTimesWraps(x, j);
    var p := x + i - MinInt;
    var q := j - i;
    var r := p % 0x1_0000_0000;
    var d := p / 0x1_0000_0000;
    assert p == d * 0x1_0000_0000 + r;
    if r + q < 0x1_0000_0000 {
      assert (p + q) % 0x1_0000_0000 == r + q;
    } else {
      assert p + q == (d + 1) * 0x1_0000_0000 + (r + q - 0x1_0000_0000);
      assert (p + q) % 0x1_0000_0000 == r + q - 0x1_0000_0000;
    }
  }

  predicate IsDigit(c: char) { '0' <= c <= '9' }

  /** Decimal digits of a natural number, most significant first, without leading zeros. */
  function Digits(n: nat): (s: string)
    ensures |s| >= 1
    ensures forall i :: 0 <= i < |s| ==> IsDigit(s[i])
    ensures s[0] == '0' ==> n == 0
    decreases n
  {
    var last := [('0' as int + n % 10) as char];
    if n < 10 then last else Digits(n / 10) + last
  }

  /** The value of a string of decimal digits. */
  function DigitsValue(s: string): nat
    requires forall i :: 0 <= i < |s| ==> IsDigit(s[i])
    decreases |s|
  {
    if |s| == 0 then 0
    else
      assert IsDigit(s[|s| - 1]);
      10 * DigitsValue(s[..|s| - 1]) + (s[|s| - 1] as int - '0' as int)
  }

  /** Integer.toString: a minus sign for negative values, then the digits. */
  function Decimal(x: int): (s: string)
    ensures |s| >= 1
    ensures s[0] == '-' <==> x < 0
    ensures forall i :: 0 < i < |s| ==> IsDigit(s[i])
  {
    if x < 0 then "-" + Digits(-x) else Digits(x)
  }

  /** Reading back the digits gives the number. */
  lemma {:induction false} DigitsRoundTrip(n: nat)
    ensures DigitsValue(Digits(n)) == n
    decreases n
  {
    var s := Digits(n);
    if n >= 10 {
      DigitsRoundTrip(n / 10);
      assert s[..|s| - 1] == Digits(n / 10);
    }
  }

  /** The printed digits spell the magnitude: x itself, or -x after the sign. */
  lemma DecimalValue(x: int)
    ensures x >= 0 ==> IsDigit(Decimal(x)[0]) && DigitsValue(Decimal(x)) == x
    ensures x < 0 ==> DigitsValue(Decimal(x)[1..]) == -x
  {
    var s := Decimal(x);
    if x < 0 {
      assert s[1..] == Digits(-x);
      DigitsRoundTrip(-x);
    } else {
      DigitsRoundTrip(x);
    }
  }

  /** Distinct natural numbers have distinct digits. */
  lemma DigitsInjective(a: nat, b: nat)
    requires Digits(a) == Digits(b)
    ensures a == b
  {
    DigitsRoundTrip(a);
    DigitsRoundTrip(b);
  }

  /** Distinct integers print differently. */
  lemma {:induction false} DecimalInjective(x: int, y: int)
    requires Decimal(x) == Decimal(y)
    ensures x == y
  {
    var s := Decimal(x);
    if x < 0 {
      assert y < 0;
      assert Digits(-x) == s[1..] == Digits(-y);
      DigitsInjective(-x, -y);
    } else {
      assert y >= 0;
      DigitsInjective(x, y);
    }
  }
}

=== FILE: ndef.dfy ===
/**
  The NDEF data model the activity works with: records, messages and an
  abstract tag that may expose an Ndef view and/or an NdefFormatable view.
  Records are immutable values; the platform constructors' own validation
  is not modelled.
 */
module Ndef {

  /** One octet of a payload; masks on it agree with Java's `int` masks on a
      sign-extended `byte`, because the masks used only look at bits 0..7. */
  type Byte = bv8

  /** A value below 0x100 fits a byte unchanged. */
  lemma SmallByte(n: int)
    requires 0 <= n < 0x100
    ensures (n as Byte) as int == n
  {
    var b: bv16 := n as bv16;
    assert b < 0x100;
    assert (b as Byte) as int == b as int;
  }

  /** A byte below 0x80 has its top bit clear. */
  lemma HighBitClear(b: Byte)
    requires b < 0x80
    ensures b & 0x80 == 0
  {
  }

  /** Stands for a Java reference that may be null. */
  datatype Option<+T> = None | Some(value: T)

  /** Type Name Format value "NFC Forum well-known type" (NdefRecord.TNF_WELL_KNOWN). */
  const TnfWellKnown: int := 1

  /** Record type of the well-known text record, the single byte 'T' (NdefRecord.RTD_TEXT). */
  const RtdText: seq<Byte> := [0x54]

  /** An NDEF record: TNF, type, id and payload, as returned by the getters of NdefRecord. */
  datatype Record = Record(tnf: int, recordType: seq<Byte>, id: seq<Byte>, payload: seq<Byte>)

  /** An NDEF message: the record array of NdefMessage.getRecords(). */
  datatype Message = Message(records: seq<Record>)

  /** The Ndef technology view of a tag: whether it reports itself writable and
      the message cached at discovery time (null when the tag held none). */
  datatype NdefView = NdefView(writable: bool, cached: Option<Message>)

  /** A discovered tag: `ndef` is what Ndef.get(tag) returns, `formatable`
      says whether NdefFormatable.get(tag) returns a view. */
  datatype Tag = Tag(ndef: Option<NdefView>, formatable: bool)
}

=== FILE: tag_session.dfy ===
/**
  The write path of the activity (writeNdefMessage and formatTag) over an
  abstract tag. Which platform calls throw is an input (`Faults`); the result
  is the boolean the activity returns, the trace of connect / write / format /
  close calls it issued, and whether a write or format call completed, that
  is, whether the tag now holds the message.
 */
module TagSession {
  import opened Ndef

  datatype Op = Connect | Write | Format | Close

  /** One platform call and whether it threw. A call that throws ends the session:
      control goes straight to the catch block, which only logs. */
  datatype Call = Call(op: Op, threw: bool)

  /** Which of the tag technology calls throw if they are made (IOException,
      FormatException, TagLostException, ...). One flag per kind of call is
      enough, because a session talks to one technology view only. */
  datatype Faults = Faults(connect: bool, write: bool, format: bool, close: bool)

  /** Whether a call of `op` throws under `faults`. */
  function Throws(faults: Faults, op: Op): bool {
    match op
    case Connect => faults.connect
    case Write => faults.write
    case Format => faults.format
    case Close => faults.close
  }

  /** `stored` is the message the tag holds after the session, when a write or
      format call completed. */
  datatype WriteResult = WriteResult(ok: bool, trace: seq<Call>, stored: Option<Message>)

  /** Connection state of the technology view a session talks to. */
  datatype Session = Disconnected | Connected

  /** The connection state after a sequence of calls, replayed from `s`: a connect
      that returns opens the connection, and close always releases it, also when
      it throws (the platform marks the technology disconnected in a finally block). */
  function Replay(s: Session, trace: seq<Call>): Session
    decreases |trace|
  {
    if |trace| == 0 then s
    else
      var next :=
        match trace[0].op
        case Connect => if trace[0].threw then s else Connected
        case Close => Disconnected
        case _ => s;
      Replay(next, trace[1..])
  }

  /** A call that returned normally. */
  function Done(op: Op): Call { Call(op, false) }

  /** The calls a session makes when it issues `ops` in order: each call that
      returns is followed by the next, and the first one that throws is the last. */
  function Attempt(ops: seq<Op>, faults: Faults): seq<Call>
    decreases |ops|
  {
    if |ops| == 0 then []
    else if Throws(faults, ops[0]) then [Call(ops[0], true)]
    else [Done(ops[0])] + Attempt(ops[1..], faults)
  }

  /** The only two traces of a session that reports success. */
  const WriteTrace: seq<Call> := [Done(Connect), Done(Write), Done(Close)]
  const FormatTrace: seq<Call> := [Done(Connect), Done(Format), Done(Close)]

  predicate Issued(trace: seq<Call>, op: Op) {
    Call(op, false) in trace || Call(op, true) in trace
  }

  /** Some connect, write or format call threw. */
  predicate IoFailed(trace: seq<Call>) {
    exists i :: 0 <= i < |trace| && trace[i].threw && trace[i].op != Close
  }

  /** A session trace: it opens with connect, and only its last call may throw. */
  predicate IsSessionTrace(trace: seq<Call>) {
    && (|trace| > 0 ==> trace[0].op == Connect)
    && forall i :: 0 <= i < |trace| - 1 ==> !trace[i].threw
  }

  /** A connection was opened and close was never called on it. */
  predicate LeftOpen(trace: seq<Call>) {
    Done(Connect) in trace && !Issued(trace, Close)
  }

  /** formatTag: connect, format with the message and close on the
      NdefFormatable view; false without a view or when any of them throws. */
  function FormatTag(tag: Tag, message: Message, faults: Faults): (r: WriteResult)
    ensures !tag.formatable ==> r == WriteResult(false, [], None)
    ensures r.ok <==> r.trace == FormatTrace
    ensures r.ok <==> tag.formatable && !faults.connect && !faults.format && !faults.close
    ensures r.stored.Some? <==> tag.formatable && !faults.connect && !faults.format
    ensures r.stored.Some? ==> r.stored.value == message
    ensures IsSessionTrace(r.trace) && !Issued(r.trace, Write)
    ensures forall c :: c in r.trace ==> c.threw == Throws(faults, c.op)
    ensures IoFailed(r.trace) ==> !r.ok && !Issued(r.trace, Close)
    ensures LeftOpen(r.trace) <==> tag.formatable && !faults.connect && faults.format
    ensures LeftOpen(r.trace) <==> Replay(Disconnected, r.trace) == Connected
  {
    if !tag.formatable then WriteResult(false, [], None)
    else if faults.connect then WriteResult(false, [Call(Connect, true)], None)
    else if faults.format then WriteResult(false, [Done(Connect), Call(Format, true)], None)
    else if faults.close then WriteResult(false, [Done(Connect), Done(Format), Call(Close, true)], Some(message))
    else WriteResult(true, FormatTrace, Some(message))
  }

  /** writeNdefMessage: nothing for a null tag; the format path when the tag has
      no Ndef view; otherwise connect, write only if the view is writable, close. */
  function WriteNdefMessage(tag: Option<Tag>, message: Message, faults: Faults): (r: WriteResult)
    ensures tag.None? ==> r == WriteResult(false, [], None)
    ensures tag.Some? && tag.value.ndef.None? ==> r == FormatTag(tag.value, message, faults)
    ensures tag.Some? && tag.value.ndef.Some? && !tag.value.ndef.value.writable ==>
              && !r.ok && r.stored.None? && !Issued(r.trace, Write)
              && (!faults.connect && !faults.close ==> r.trace == [Done(Connect), Done(Close)])
    ensures tag.Some? && tag.value.ndef.Some? ==>
              && (r.ok <==> tag.value.ndef.value.writable && !faults.connect && !faults.write && !faults.close)
              && (r.stored.Some? <==> tag.value.ndef.value.writable && !faults.connect && !faults.write)
    ensures r.ok <==> r.trace == WriteTrace || r.trace == FormatTrace
    ensures r.ok ==> r.stored == Some(message)
    ensures r.stored.Some? ==> r.stored.value == message
    ensures IsSessionTrace(r.trace)
    ensures forall c :: c in r.trace ==> c.threw == Throws(faults, c.op)
    ensures IoFailed(r.trace) ==> !r.ok && !Issued(r.trace, Close)
    ensures LeftOpen(r.trace) <==>
              && tag.Some? && !faults.connect
              && (if tag.value.ndef.None? then tag.value.formatable && faults.format
                  else tag.value.ndef.value.writable && faults.write)
    ensures LeftOpen(r.trace) <==> Replay(Disconnected, r.trace) == Connected
  {
    match tag
    case None => WriteResult(false, [], None)
    case Some(t) =>
      match t.ndef
      case None => FormatTag(t, message, faults)
      case Some(view) =>
        if faults.connect then WriteResult(false, [Call(Connect, true)], None)
        else if view.writable then
          if faults.write then WriteResult(false, [Done(Connect), Call(Write, true)], None)
          else if faults.close then WriteResult(false, [Done(Connect), Done(Write), Call(Close, true)], Some(message))
          else WriteResult(true, WriteTrace, Some(message))
        else if faults.close then WriteResult(false, [Done(Connect), Call(Close, true)], None)
        else WriteResult(false, [Done(Connect), Done(Close)], None)
  }

  /** formatTag issues connect, format and close in that order until a call
      throws, and makes no call at all without a formatable view. */
  lemma FormatSessionCalls(tag: Tag, message: Message, faults: Faults)
    ensures FormatTag(tag, message, faults).trace
            == if tag.formatable then Attempt([Connect, Format, Close], faults) else []
  {
    assert [Connect, Format, Close][1..] == [Format, Close];
  }

  /** On the Ndef view the session issues connect, write when the view is
      writable, and close, in that order, until a call throws; it never formats. */
  lemma NdefSessionCalls(view: NdefView, formatable: bool, message: Message, faults: Faults)
    ensures WriteNdefMessage(Some(Tag(Some(view), formatable)), message, faults).trace
            == Attempt(if view.writable then [Connect, Write, Close] else [Connect, Close], faults)
  {
    assert [Connect, Close][1..] == [Close];
    assert [Connect, Write, Close][1..] == [Write, Close];
  }

  /** A connect that throws ends the session at once: nothing else is called,
      close included, on either path. */
  lemma ConnectFailureEndsSession(tag: Option<Tag>, message: Message, faults: Faults)
    requires faults.connect
    ensures |WriteNdefMessage(tag, message, faults).trace| <= 1
    ensures !Issued(WriteNdefMessage(tag, message, faults).trace, Close)
  {
    var trace := WriteNdefMessage(tag, message, faults).trace;
    if |trace| > 0 {
      assert trace[0] in trace;
      assert trace[0].threw;
    }
  }

  /** A false result does not mean the tag was left untouched: when only the
      closing call throws, the message is on the tag and the activity still reports failure. */
  lemma FailureAfterStore(view: NdefView, message: Message)
    requires view.writable
    ensures var r := WriteNdefMessage(Some(Tag(Some(view), false)), message, Faults(false, false, false, true));
            !r.ok && r.stored == Some(message)
  {
  }
}

=== FILE: text_record.dfy ===
/**
  The well-known text record codec of the activity (createTextRecord and
  getTextFromNdefRecord), modelled on byte sequences as written, and a
  corrected codec that follows the text record layout of section 3.2.1 of
  the NFC Forum Text Record Type Definition 1.0 (status byte: bit 7 selects
  UTF-16, bits 5..0 hold the language-code length).

  Character conversion is not modelled: the language code and the text come
  in already encoded, and a decoded text is the byte slice plus the charset
  that would have been used to turn it into a string.
 */
module TextRecord {
  import opened Ndef

  datatype Charset = Utf8 | Utf16

  /** Charset name the decoder passes when bit 7 of the status byte is clear. */
  const Utf8Name: string := "UTF-8"
  /** Charset name the decoder passes when bit 7 is set: it contains a space. */
  const Utf16NameAsWritten: string := "UTF- 16"
  /** The registered name of UTF-16. */
  const Utf16Name: string := "UTF-16"

  predicate IsAlphaNumeric(c: char) {
    'A' <= c <= 'Z' || 'a' <= c <= 'z' || '0' <= c <= '9'
  }

  /** Characters java.nio.charset.Charset admits in a charset name. */
  predicate IsCharsetNameChar(c: char) {
    IsAlphaNumeric(c) || c == '-' || c == '+' || c == ':' || c == '_' || c == '.'
  }

  /** A legal charset name starts with a letter or digit and uses only name characters;
      any other name makes the lookup throw IllegalCharsetNameException. */
  predicate IsLegalCharsetName(name: string) {
    && |name| > 0
    && IsAlphaNumeric(name[0])
    && forall i :: 0 <= i < |name| ==> IsCharsetNameChar(name[i])
  }

  /** Charset lookup by name as on Android 6.0 and earlier, restricted to the two
      names the decoder can pass and the registered UTF-16 name; None stands for
      UnsupportedEncodingException. */
  function LookupCharset(name: string): (cs: Option<Charset>)
    ensures cs.Some? ==> IsLegalCharsetName(name)
    ensures cs == Some(Utf8) <==> name == Utf8Name
    ensures cs == Some(Utf16) <==> name == Utf16Name
    ensures name == Utf16NameAsWritten ==> cs.None?
  {
    if !IsLegalCharsetName(name) then None
    else if name == Utf8Name then Some(Utf8)
    else if name == Utf16Name then Some(Utf16)
    else None
  }

  /** Why the decoder throws: `payload[0]` on an empty payload
      (ArrayIndexOutOfBoundsException), or a String slice that does not fit
      the payload (StringIndexOutOfBoundsException). Neither is caught there. */
  datatype Fault = EmptyPayload | SliceOutOfBounds

  /** Result of getTextFromNdefRecord: the text bytes and their charset, null
      (the caught UnsupportedEncodingException), or an exception that escapes. */
  datatype Decoded = Text(charset: Charset, bytes: seq<Byte>) | NullText | Thrown(fault: Fault)

  /** Language codes whose length survives the encoder's and the decoder's masks. */
  const RoundTripLengths: set<nat> := {0, 1, 2, 3, 16, 17, 18, 19}

  // ---------------------------------------------------------------------------
  // As written
  // ---------------------------------------------------------------------------

  /** The only value below m that is congruent to n modulo m is n % m; m is the
      width of one of the two length fields. */
  lemma RemainderUnique(n: nat, b: nat, m: nat)
    requires m == 32 || m == 64
    requires b < m && (n - b) % m == 0
    ensures b == n % m
  {
    var k := (n - b) / m;
    if m == 32 {
      assert n - b == k * 32;
      assert n / 32 == k && n % 32 == b;
    } else {
      assert n - b == k * 64;
      assert n / 64 == k && n % 64 == b;
    }
  }

  /** `(byte) (languageSize & 0x1F)`: for a non-negative size the 5-bit mask
      keeps the remainder modulo 32. */
  function StatusByte(languageSize: nat): (b: Byte)
    ensures b < 0x20 && b & 0x80 == 0
    ensures languageSize < 32 ==> b as int == languageSize
    ensures (languageSize - b as int) % 32 == 0
  {
    var field := languageSize % 0x20;
    assert languageSize - field == languageSize / 0x20 * 0x20;
    SmallByte(field);
    HighBitClear(field as Byte);
    field as Byte
  }

  /** `payload[0] & 0063`: the octal literal is 0x33, so bits 2, 3, 6 and 7 are dropped. */
  function LanguageSizeAsWritten(status: Byte): (n: nat)
    ensures n <= 0x33 && n <= status as int
    ensures n == status as int <==> status & 0xCC == 0
  {
    (status & 0x33) as int
  }

  /** The charset name chosen from bit 7 of the status byte. */
  function CharsetNameAsWritten(status: Byte): (name: string)
    ensures name == Utf8Name <==> status & 0x80 == 0
    ensures LookupCharset(name) == (if status & 0x80 == 0 then Some(Utf8) else None)
  {
    if status & 0x80 == 0 then Utf8Name else Utf16NameAsWritten
  }

  /** createTextRecord with the language code and the text already UTF-8 encoded. */
  function CreateTextRecord(language: seq<Byte>, text: seq<Byte>): (r: Record)
    ensures r.tnf == TnfWellKnown && r.recordType == RtdText && r.id == []
    ensures |r.payload| == 1 + |language| + |text|
    ensures r.payload[0] as int == |language| % 32 && r.payload[0] & 0x80 == 0
    ensures r.payload[1..1 + |language|] == language
    ensures r.payload[1 + |language|..] == text
  {
    var status := StatusByte(|language|);
    RemainderUnique(|language|, status as int, 32);
    Record(TnfWellKnown, RtdText, [], [status] + language + text)
  }

  /** getTextFromNdefRecord. The charset is looked up before the slice bounds
      are checked, as the String constructor taking a charset name does on
      Android 6.0 and earlier. */
  function TextFromRecord(record: Record): (d: Decoded)
    ensures d == Thrown(EmptyPayload) <==> |record.payload| == 0
    ensures d.NullText? <==> |record.payload| > 0 && record.payload[0] & 0x80 != 0
    ensures d.Thrown? && d.fault == SliceOutOfBounds <==>
              && |record.payload| > 0 && record.payload[0] & 0x80 == 0
              && |record.payload| < 1 + LanguageSizeAsWritten(record.payload[0])
    ensures d.Text? ==> d.charset == Utf8
    ensures d.Text? ==> |record.payload| == 1 + LanguageSizeAsWritten(record.payload[0]) + |d.bytes|
    ensures d.Text? ==> record.payload == record.payload[..|record.payload| - |d.bytes|] + d.bytes
  {
    var payload := record.payload;
    if |payload| == 0 then Thrown(EmptyPayload)
    else
      var size := LanguageSizeAsWritten(payload[0]);
      match LookupCharset(CharsetNameAsWritten(payload[0]))
      case None => NullText
      case Some(cs) =>
        if |payload| < 1 + size then Thrown(SliceOutOfBounds)
        else Text(cs, payload[1 + size..])
  }

  // ---------------------------------------------------------------------------
  // Corrected codec: 6-bit length on both sides and the registered UTF-16 name
  // ---------------------------------------------------------------------------

  /** What a conforming decoder recovers from a text record payload. */
  datatype TextPayload = TextPayload(charset: Charset, language: seq<Byte>, text: seq<Byte>)

  /** Status byte with the 6-bit length field, `languageSize & 0x3F`. */
  function StatusByteFixed(languageSize: nat): (b: Byte)
    ensures b < 0x40 && b & 0x80 == 0
    ensures languageSize < 64 ==> b as int == languageSize
    ensures (languageSize - b as int) % 64 == 0
  {
    var field := languageSize % 0x40;
    assert languageSize - field == languageSize / 0x40 * 0x40;
    SmallByte(field);
    HighBitClear(field as Byte);
    field as Byte
  }

  function CreateTextRecordFixed(language: seq<Byte>, text: seq<Byte>): (r: Record)
    ensures r.tnf == TnfWellKnown && r.recordType == RtdText && r.id == []
    ensures |r.payload| == 1 + |language| + |text|
    ensures r.payload[0] as int == |language| % 64 && r.payload[0] & 0x80 == 0
    ensures r.payload[1..1 + |language|] == language
    ensures r.payload[1 + |language|..] == text
  {
    var status := StatusByteFixed(|language|);
    RemainderUnique(|language|, status as int, 64);
    Record(TnfWellKnown, RtdText, [], [status] + language + text)
  }

  /** Decoder with the mask 0x3F and the name "UTF-16"; a structural violation is None. */
  function ParseTextRecord(record: Record): (p: Option<TextPayload>)
    ensures p.None? <==>
              |record.payload| == 0 || |record.payload| < 1 + (record.payload[0] & 0x3F) as int
    ensures p.Some? ==>
              && p.value.charset == (if record.payload[0] & 0x80 == 0 then Utf8 else Utf16)
              && record.payload == [record.payload[0]] + p.value.language + p.value.text
              && |p.value.language| == (record.payload[0] & 0x3F) as int
  {
    var payload := record.payload;
    if |payload| == 0 then None
    else
      var size := (payload[0] & 0x3F) as int;
      if |payload| < 1 + size then None
      else
        var cs := if payload[0] & 0x80 == 0 then Utf8 else Utf16;
        SplitAt(payload, size);
        Some(TextPayload(cs, payload[1..1 + size], payload[1 + size..]))
  }

  /** A payload is its status byte, the language field and the rest. */
  lemma SplitAt(payload: seq<Byte>, size: nat)
    requires 1 + size <= |payload|
    ensures payload == [payload[0]] + payload[1..1 + size] + payload[1 + size..]
  {
    assert payload == payload[..1] + payload[1..1 + size] + payload[1 + size..];
  }

  // ---------------------------------------------------------------------------
  // Properties
  // ---------------------------------------------------------------------------

  /** The language size the decoder reads back from a status byte the encoder wrote:
      never more than the real size, and equal exactly for the round-trip lengths. */
  lemma ReadBackLanguageSize(size: nat)
    ensures LanguageSizeAsWritten(StatusByte(size)) <= size
    ensures LanguageSizeAsWritten(StatusByte(size)) == size <==> size in RoundTripLengths
  {
    var b := StatusByte(size);
    assert b & 0x33 <= b;
    if size < 32 {
      assert b == size as Byte;
      assert (b & 0x33 == b) <==> b in {0, 1, 2, 3, 16, 17, 18, 19};
    }
  }

  /** Decoding a record built by CreateTextRecord never throws nor yields null:
      it yields the text preceded by the language bytes the mask failed to skip. */
  lemma {:induction false} TextFromCreatedRecord(language: seq<Byte>, text: seq<Byte>)
    ensures TextFromRecord(CreateTextRecord(language, text))
            == Text(Utf8, language[LanguageSizeAsWritten(StatusByte(|language|))..] + text)
  {
    var status := StatusByte(|language|);
    var size := LanguageSizeAsWritten(status);
    ReadBackLanguageSize(|language|);
    var payload := CreateTextRecord(language, text).payload;
    assert payload == [status] + language + text;
    SkipLanguage(status, language, text, size);
  }

  /** Skipping the status byte and the first `size` language bytes leaves the
      rest of the language code followed by the text. */
  lemma SkipLanguage(status: Byte, language: seq<Byte>, text: seq<Byte>, size: nat)
    requires size <= |language|
    ensures ([status] + language + text)[1 + size..] == language[size..] + text
  {
    var payload := [status] + language + text;
    var n := |language|;
    assert payload[1 + size..] == payload[1 + size..1 + n] + payload[1 + n..];
    assert payload[1 + size..1 + n] == language[size..];
  }

  /** Round trip of the code as written: the text comes back exactly iff the
      language code length is one of 0, 1, 2, 3, 16, 17, 18, 19. */
  lemma {:induction false} RoundTripAsWritten(language: seq<Byte>, text: seq<Byte>)
    ensures TextFromRecord(CreateTextRecord(language, text)) == Text(Utf8, text)
            <==> |language| in RoundTripLengths
  {
    var size := LanguageSizeAsWritten(StatusByte(|language|));
    ReadBackLanguageSize(|language|);
    TextFromCreatedRecord(language, text);
    if size != |language| {
      assert |language[size..] + text| > |text|;
    }
  }

  /** Round trip of the corrected codec for every language code that fits the 6-bit field. */
  lemma {:induction false} RoundTripFixed(language: seq<Byte>, text: seq<Byte>)
    requires |language| < 64
    ensures ParseTextRecord(CreateTextRecordFixed(language, text)) == Some(TextPayload(Utf8, language, text))
  {
    var payload := CreateTextRecordFixed(language, text).payload;
    assert (payload[0] & 0x3F) as int == |language| by {
      assert payload[0] == |language| as Byte;
    }
    assert payload[1..1 + |language|] == language;
    assert payload[1 + |language|..] == text;
  }

  /** Where the two decoders part: on a UTF-8 record that is well formed for the
      6-bit length, the decoder as written returns the same text exactly when
      bits 2 and 3 of the status byte (the bits 0x3F keeps and 0063 drops) are clear. */
  lemma {:induction false} DecodersAgreeIff(record: Record)
    requires |record.payload| > 0 && record.payload[0] & 0x80 == 0
    requires |record.payload| >= 1 + (record.payload[0] & 0x3F) as int
    ensures ParseTextRecord(record).Some?
    ensures TextFromRecord(record) == Text(Utf8, ParseTextRecord(record).value.text)
            <==> record.payload[0] & 0x0C == 0
  {
    var b := record.payload[0];
    assert b & 0x33 <= b & 0x3F;
    assert (b & 0x33 == b & 0x3F) <==> b & 0x0C == 0;
    var asWritten := TextFromRecord(record);
    var fixed := ParseTextRecord(record).value;
    if b & 0x0C != 0 {
      assert (b & 0x33) as int < (b & 0x3F) as int;
      assert |asWritten.bytes| > |fixed.text|;
    }
  }

  // ---------------------------------------------------------------------------
  // Concrete records
  // ---------------------------------------------------------------------------

  /** The bytes of "en". */
  const LanguageEn: seq<Byte> := [0x65, 0x6E]
  /** The bytes of "en-US". */
  const LanguageEnUs: seq<Byte> := [0x65, 0x6E, 0x2D, 0x55, 0x53]
  /** The bytes of "Tag content NR. 1". */
  const SampleText: seq<Byte> :=
    [0x54, 0x61, 0x67, 0x20, 0x63, 0x6F, 0x6E, 0x74, 0x65, 0x6E, 0x74, 0x20, 0x4E, 0x52, 0x2E, 0x20, 0x31]

  /** "Tag content NR. 1" in language "en" is framed as 0x02, 'e', 'n', then the
      text, and reads back as the same text. */
  lemma SampleRecordRoundTrip()
    ensures CreateTextRecord(LanguageEn, SampleText).payload
            == [0x02, 0x65, 0x6E, 0x54, 0x61, 0x67, 0x20, 0x63, 0x6F, 0x6E, 0x74, 0x65,
                0x6E, 0x74, 0x20, 0x4E, 0x52, 0x2E, 0x20, 0x31]
    ensures TextFromRecord(CreateTextRecord(LanguageEn, SampleText)) == Text(Utf8, SampleText)
  {
    assert StatusByte(|LanguageEn|) == 0x02;
    assert CreateTextRecord(LanguageEn, SampleText).payload == [0x02] + LanguageEn + SampleText;
    RoundTripAsWritten(LanguageEn, SampleText);
  }

  /** A conforming UTF-8 record with the five-byte language "en-US": the mask
      0063 skips one language byte only, so "n-US" is returned in front of the
      text, while the 6-bit mask recovers language and text. */
  lemma EnUsRecordMisread()
    ensures TextFromRecord(CreateTextRecordFixed(LanguageEnUs, [0x48, 0x69]))
            == Text(Utf8, [0x6E, 0x2D, 0x55, 0x53, 0x48, 0x69])
    ensures ParseTextRecord(CreateTextRecordFixed(LanguageEnUs, [0x48, 0x69]))
            == Some(TextPayload(Utf8, LanguageEnUs, [0x48, 0x69]))
  {
    var record := CreateTextRecordFixed(LanguageEnUs, [0x48, 0x69]);
    assert record.payload == [0x05, 0x65, 0x6E, 0x2D, 0x55, 0x53, 0x48, 0x69];
    RoundTripFixed(LanguageEnUs, [0x48, 0x69]);
  }

  /** A conforming UTF-16 record (status 0x82, language "en", text 0x00 0x48):
      the misspelt charset name turns it into null, the registered name decodes it. */
  lemma Utf16RecordIsNull()
    ensures TextFromRecord(Record(TnfWellKnown, RtdText, [], [0x82, 0x65, 0x6E, 0x00, 0x48])) == NullText
    ensures ParseTextRecord(Record(TnfWellKnown, RtdText, [], [0x82, 0x65, 0x6E, 0x00, 0x48]))
            == Some(TextPayload(Utf16, LanguageEn, [0x00, 0x48]))
  {
    var payload: seq<Byte> := [0x82, 0x65, 0x6E, 0x00, 0x48];
    assert payload[1..3] == LanguageEn;
  }

  /** A 32-byte language code: the 5-bit mask writes length 0, so a conforming
      reader sees no language and takes the code for part of the text; the
      6-bit encoder keeps both apart. */
  lemma LongLanguageLost(text: seq<Byte>)
    ensures ParseTextRecord(CreateTextRecord(seq(32, _ => 0x61), text))
            == Some(TextPayload(Utf8, [], seq(32, _ => 0x61) + text))
    ensures ParseTextRecord(CreateTextRecordFixed(seq(32, _ => 0x61), text))
            == Some(TextPayload(Utf8, seq(32, _ => 0x61), text))
  {
    var language: seq<Byte> := seq(32, _ => 0x61);
    var payload := CreateTextRecord(language, text).payload;
    assert payload[0] == 0;
    assert payload[1..] == language + text;
    RoundTripFixed(language, text);
  }
}
